=== FILE: README.md ===
# maplibre-legend: the legend-entry interpreter in Dafny

This project models the core of `maplibre-legend`, a Rust library that draws
legends for MapLibre style documents. The core takes one style property value
(for example a layer's `fill-color`) and the layer's `metadata.legend` object.
It produces an ordered list of `(label, color)` legend entries.

- A bare string, number or boolean becomes one entry under the layer's label.
- A tagged array is read as a `match`, `case` or `interpolate` expression. It
  yields one entry per branch, in source order.
- `match` and `case` may also yield one default entry.
- Custom labels from `legend.custom-labels` replace synthesized labels by
  position.

Around this interpreter the model also covers:

- the vertical layout of the fill and line legends: panel height, first-row
  offset and per-row y;
- per-layer type dispatch and lookup of a layer by id;
- the `render_all` fold, which stacks every layer into one picture with
  separators between layers.

Modules:

| file | module | models |
|---|---|---|
| errors.dfy | `Errors` | `LegendError` (InvalidJson / InvalidExpression), `Option`, `Result` |
| decimal.dfy | `Decimal` | decimal text of integer JSON numbers |
| json.dfy | `Json` | the JSON value tree, key lookup, literal text, the `#cccccc` color fallback |
| layers.dfy | `Layers` | `Layer`, the legend metadata accessors, `extract_color` |
| conditions.dfy | `Conditions` | `format_condition`, as written and corrected |
| expressions.dfy | `Expressions` | tag dispatch, the shared branch walk, `match`/`case`/`interpolate`, `parse_expression` |
| expression_facts.dfy | `ExpressionFacts` | per-form characterisations: failures, entry counts, labels, colors |
| panels.dfy | `Panels` | layout of `render_fill` and `render_line` |
| legend.dfy | `Legend` | `render_layer_svg` dispatch, `render_layer` lookup |
| stacking.dfy | `Stacking` | the `render_all` loop and its reference semantics |
| examples.dfy | `Examples` | worked inputs for each form |

Where the MapLibre style expression language and this code differ, the model
follows the code:

- There is no `step` form. An array tagged `step` is an unknown tag and fails.
- `match` and `interpolate` accept only a bare two-element `["get", <string>]`
  as input. Wrappers such as `downcase`, `upcase` and `to-string` are rejected.
- `format_condition` does not fall back to `"cond"` on malformed conditions.
  It fails on a non-array condition, a non-string operator, a `has` without a
  string field, and on every malformed comparison. It returns `"cond"` only for
  an empty array and for unknown operators.
- The comparison form reads its field from `["get", f, …]` without checking
  that array's length, and it does not unwrap transforms either.
- A `match` branch value must be a string. Numbers fail.
- A `case` condition is formatted only when no custom label covers that branch.
  So a malformed condition under a custom label does not fail.

## Model

| member | source | states |
|---|---|---|
| `Decimal.IntToStringInjective` | src/common.rs:443 | Two integers print to the same decimal text exactly when they are equal. |
| `Decimal.ParseNatToString` | src/common.rs:460 | Reading the printed digits back gives the original number, so the text loses nothing. |
| `Json.LiteralText` | src/common.rs:458-468 | Exactly strings, numbers and booleans have a textual form: a string's form is the string itself, a number's is its decimal text, and a boolean's is `true` or `false`. |
| `Layers.LegendObject` | src/common.rs:51-67 | Fails with InvalidJson exactly when `metadata.legend` exists and is not an object. It yields that object when it is one, and nothing when metadata or `legend` is absent. |
| `Layers.LayerLabel` | src/common.rs:69-77 | Fails exactly when the legend is malformed, with InvalidJson. Otherwise it is `metadata.legend.label` when that is a string, else the layer id. |
| `Layers.DefaultLabel` | src/common.rs:79-87 | Fails exactly when the legend is malformed. Otherwise it is `metadata.legend.default` when that is a string, else the layer id. |
| `Layers.CustomLabels` | src/common.rs:89-101 | Fails exactly when the legend is malformed. Otherwise it is the string elements of `custom-labels` when that is an array, else empty. |
| `Layers.StringsOfAppend` | src/common.rs:94-98 | Filtering custom labels distributes over concatenation. |
| `Layers.StringsOfSingle` | src/common.rs:96 | A single string element is kept and a single non-string element is dropped. |
| `Layers.StringsOfAllStrings` | src/common.rs:94-98 | A list made only of strings passes through unchanged, element by element, in order. |
| `Layers.StringsOfSound` | src/common.rs:94-98 | Every kept custom label is a string element of the input list. |
| `Layers.ExtractColor` | src/common.rs:208-218 | Succeeds exactly on a present string or array: a string gives itself, an array gives `#cccccc`. Everything else fails with InvalidJson. |
| `Conditions.FormatCondition` | src/common.rs:220-277 | The full case table. Non-array and non-string-operator inputs fail. `[]` gives `cond`. `!` gives `without f` or `undefined`. `has` gives `has f` or fails. A comparison succeeds exactly with a `get` field and a literal third element, giving `f op lit`. Other operators give `cond`. All errors are InvalidExpression. |
| `Conditions.AsWrittenDiffersOnlyByPanic` | src/common.rs:254-275 | The source formatter panics exactly on a comparison with a `get` operand and no third element. On every other input it agrees with the corrected one. |
| `Conditions.ComparisonWithoutValuePanics` | src/common.rs:258 | `["==", ["get", "f"]]` panics as written and is an error in the corrected formatter. |
| `Expressions.KindFromStr` | src/common.rs:18-28 | Succeeds exactly on `match`, `case` and `interpolate`, and the kind's name is the input. Every other tag is an InvalidExpression. |
| `Expressions.KindNameRoundTrip` | src/common.rs:11-28 | Every expression kind parses back from its own name. |
| `Expressions.WalkPairsSpec` | src/common.rs:306-332 | The shared branch loop succeeds exactly when every branch label does. It then yields one entry per pair in source order, with positional custom labels and the colors of the odd operands. On failure it returns the error of the first failing branch. |
| `Expressions.PairCountBound` | src/common.rs:306 | A pair index is walked exactly when it is below ⌊(stop-start)/2⌋, which is the loop bound `i + 1 < stop`. |
| `Expressions.ParseExpression` | src/common.rs:453-497 | Null and objects fail with InvalidExpression. Other literals yield exactly one entry `(layer label, literal text)`, failing only with the legend. Arrays tagged `match`, `case` or `interpolate` are exactly the result of that form's parser. Empty arrays, non-string tags and unknown tags fail with InvalidExpression. |
| `ExpressionFacts.EagerWalkSpec` | src/common.rs:306-332 | In the `match`/`interpolate` branch loop every branch synthesizes its label, so the loop succeeds exactly when every synthesis does. Entry j then carries custom label j when there is one, else the synthesized label, and the color of its pair. |
| `ExpressionFacts.LazyWalkSpec` | src/common.rs:352-372 | In the `case` branch loop a branch with a custom label never formats its condition. So the loop fails exactly when some branch without a custom label has a rejected condition. Entry j carries the custom label or the formatted condition, and the color of its pair. |
| `ExpressionFacts.ParseMatchSpec` | src/common.rs:280-344 | `match` fails below length 4, or on a non-bare `get`, a malformed legend or a non-string value. Otherwise it yields ⌊(len-3)/2⌋ entries `(custom label or value, color or #cccccc)`. A default entry follows exactly when the last element is a string, labelled with the next custom label or the default label. |
| `ExpressionFacts.ParseCaseSpec` | src/common.rs:346-386 | `case` fails exactly on a malformed legend or on a rejected condition of a branch without a custom label. It yields ⌊(len-1)/2⌋ branch entries. A default entry follows exactly when the length is even and the last element is a string. |
| `ExpressionFacts.ParseInterpolateSpec` | src/common.rs:388-451 | `interpolate` fails below length 4, or on a malformed legend, a non-bare `get` at index 2 or a non-number stop. Otherwise it yields ⌊(len-3)/2⌋ entries labelled `<field> ≥ <stop>` unless a custom label replaces them. It has no default entry. |
| `ExpressionFacts.ParseExpressionNeedsLegend` | src/common.rs:469 | Every successful interpretation implies a well-formed legend object. |
| `ExpressionFacts.ParseExpressionErrorKinds` | src/common.rs:453-497 | With a well-formed legend every failure is an InvalidExpression. An InvalidJson failure implies a malformed legend. |
| `ExpressionFacts.WalkPairsErrorFrom` | src/common.rs:306-332 | A branch walk whose label function only fails with InvalidExpression only fails with InvalidExpression. |
| `ExpressionFacts.EmptyResultOnlyFromArrays` | src/common.rs:457-471 | An empty entry list only comes from an expression array, never from a literal. |
| `ExpressionFacts.StopLabelsDistinct` | src/common.rs:443 | Two different numeric stops of the same field get different `<field> ≥ <stop>` labels. |
| `ExpressionFacts.InterpolateLabelsDistinct` | src/common.rs:440-444 | Without custom labels, `interpolate` entries for different stops have different labels. |
| `Panels.RenderFill` | src/fill.rs:15-87 | A missing `fill-color` is InvalidJson. The width is the default width. n > 0 rows give height 20+30n, or 40+30n with a title. Row i is at y 10+30i, or 40+30i with a title, with its text 15 lower. No rows give the default height. |
| `Panels.RenderLine` | src/line.rs:15-84 | A missing `line-color` is InvalidJson. The width is the default width. n > 0 rows give height 20+30n, plus 20 with a title. Row i's stroke is at 20+30i, or 50+30i with a title, with its text 5 lower. No rows give the default height. |
| `Panels.RenderPanelFailsOnlyOnExpression` | src/fill.rs:15-85 | A panel renders exactly when its color property exists and the interpreter accepts it, with the interpreter's error otherwise. Its rows are the entries in order, 30 apart. A title is drawn exactly when requested. The single swatch appears exactly when there are no entries. |
| `Legend.RenderLayerSvg` | src/lib.rs:187-228 | Fill, line and circle layers need a paint object, else InvalidJson. Given one, fill and line yield exactly the fill or line panel built from it, or its error. Circle, symbol, an included raster and any other type yield exactly what the circle, symbol, raster or default renderer returns. An excluded raster yields a 0x0 blank. |
| `Legend.FindLayer` | src/lib.rs:93-97 | Finds the first layer with the id, or none exactly when no layer has it. |
| `Legend.RenderLayer` | src/lib.rs:92-108 | An unknown id is InvalidJson. Otherwise the first layer with the id is rendered, with the per-call title flag overriding the configured one. |
| `Stacking.RenderSeqSpec` | src/lib.rs:128-142 | The layer loop succeeds exactly when every layer renders, and then keeps the drawings in iteration order. Otherwise it fails with the error of the first failing layer in that order. |
| `Stacking.RenderSeqPrefixError` | src/lib.rs:135-142 | A failure among the first layers of the order is the failure of the whole render. |
| `Stacking.MaxWidthIsMaximum` | src/lib.rs:148 | The combined width is at least every layer's width and equals one of them, or 0 when there are no layers. |
| `Stacking.OffsetsOfSpec` | src/lib.rs:149-162 | Layer t is placed at the total height of the layers before it. |
| `Stacking.SeparatorsOfSpec` | src/lib.rs:153-161 | Separator t sits at the total height of layers 0..t and reaches the running maximum width. |
| `Stacking.SeparatorPlacement` | src/lib.rs:153-162 | There are n-1 separators for n layers. Separator t is at layer t's offset plus its height. |
| `Stacking.PlaceLayer` | src/lib.rs:148-162 | After one more layer, the running width, height, offsets and separators are those of the longer prefix of drawings. The separator under the last layer is skipped. |
| `Stacking.StackLayers` | src/lib.rs:121-171 | The loop fails exactly when the reference render fails, with the same error. Otherwise the height is the sum of the layer heights, the width is the maximum width, offsets are running heights, and every layer but the last is followed by a separator. |
| `Stacking.RenderAll` | src/lib.rs:121-171 | `render_all` stacks the layers in index order, or in reverse order with `rev`, with the guarantees of `StackLayers`. |
| `Examples.MatchEntriesInSourceOrder` | src/common.rs:280-344 | `["match", ["get","s"], "a", "#111", "b", "#222", "#999"]` on layer `L` yields `(a,#111) (b,#222) (L,#999)`. |
| `Examples.CustomLabelUsedUp` | src/common.rs:324-339 | With custom labels `["X", 7]` the same `match` yields `(X,#111) (b,#222) (L,#999)`. |
| `Examples.CaseWithDefault` | src/common.rs:346-386 | `["case", ["==", ["get","t"], "x"], "#aaa", "#bbb"]` yields `(t == x,#aaa) (L,#bbb)`. |
| `Examples.InterpolateStops` | src/common.rs:388-451 | `["interpolate", ["linear"], ["get","n"], 0, "#a", 10, "#b"]` yields `(n ≥ 0,#a) (n ≥ 10,#b)`. |
| `Examples.StepIsRejected` | src/common.rs:18-28 | A `step` expression fails. |

## Left out

- Sprite fetching (`get_sprite`) and icon cropping and encoding (`get_icon_data_url`). These are HTTP, image decoding, PNG encoding and base64, all done by foreign libraries.
- All SVG text: `render_label`, `render_separator` and the document strings. The model keeps the numbers and texts that go into the SVG. The separator's 0.90 float width factor is not modelled.
- Opacity, line width and stroke width. These are styling floats that do not affect entries or layout.
- `fill-outline-color`. It is a color string read with a fallback to `black`, so it never fails, and it does not affect entries or layout.
- The circle, symbol, raster and default renderers. They are parameters (`Legend.Collaborators`) that return a size or an error. The symbol renderer is assumed to capture the sprite data.
- `MapLibreLegend::new`: JSON deserialisation and sprite loading are I/O. A `Style` is given directly as a list of layers.
- The LegendError variants that wrap network, image and serde errors.
- `Json.LiteralText`: `Num(n)` stands for a number written as a plain integer, with no fraction and no exponent, inside the `i64`/`u64` range. Its text is its decimal digits, as in the source. Every other JSON number is an `f64` in the source, even when its value is an integer, and prints in float form: `5.0` for `5.0`, `100.0` for `1e2`, `1e20` for `100000000000000000000`. This applies both to a bare literal and to a comparison value. `interpolate` stops are not affected, because they go through `as_f64` and Rust prints `5.0` as `5` there.
- JSON numbers are integers. Non-integer numbers, and Rust's `f64` formatting of `interpolate` stops, are not modelled. Integers above 2^53 would lose precision through `as_f64` in the source.
- `Panels.RenderFill`: heights and row positions are unbounded integers. The source computes each row's y as `init_y + i as i32 * 30` in `i32`, which overflows from about 71.6 million entries, and the height in `u32`, which overflows from about 143 million entries.
- `Panels.RenderLine`: the same limits apply. The `i32` stroke y overflows from about 71.6 million entries, and the `u32` height from about 143 million.
- `Stacking.StackLayers`: the running `y_offset` is an unbounded natural rather than a `u32`.
- `Stacking.RenderAll`: the same `u32` remark applies.
- `ExpressionFacts.StopLabelsDistinct`: holds for the model's exact integers only. The source prints stops through `as_f64`, so two different integers above 2^53 can print the same label.
- `ExpressionFacts.InterpolateLabelsDistinct`: the same `as_f64` remark applies. Above 2^53, two different stops can get the same label.
- `Conditions.FormatCondition`: a two-element comparison is an InvalidExpression here. The source panics on it instead (see Findings). The interpreter uses this corrected formatter.

## Findings

| source | as written | input that shows it | evidently intended | confidence | as-written member | corrected member |
|---|---|---|---|---|---|---|
| src/common.rs:258 | In a comparison whose operand 1 is a `get`, the value is read with `arr[2]`, with no length check | the `case` condition `["==", ["get", "f"]]` | report InvalidExpression, as the other malformed comparisons do | high; not executed | `Conditions.ComparisonWithoutValuePanics` | `Conditions.FormatCondition` |

=== FILE: conditions.dfy ===
/** The condition pretty-printer `format_condition` (src/common.rs:220-277),
    which supplies the synthesized labels of `case` branches. */
module Conditions {
  import opened Errors
  import opened Json

  /** The six comparison operators the formatter renders as `field op value`. */
  const ComparisonOps: set<string> := {"==", "!=", ">", ">=", "<", "<="}

  /** The operator of a condition: its first element, when that is a string. */
  function Operator(cond: Json): Option<string> {
    if cond.Arr? && |cond.a| > 0 && cond.a[0].Str? then Some(cond.a[0].s) else None
  }

  /** Element `i` of a condition array, when present. */
  function Arg(cond: Json, i: nat): Option<Json> {
    if cond.Arr? then Element(cond.a, i) else None
  }

  /** The field of a `["has", f, …]` operand: present exactly when the
      operand is an array whose element 0 is `"has"` and element 1 a string. */
  function HasField(operand: Option<Json>): Option<string> {
    match operand
    case Some(Arr(inner)) =>
      if Element(inner, 0) == Some(Str("has")) && Element(inner, 1).Some? && Element(inner, 1).value.Str?
      then Some(inner[1].s)
      else None
    case _ => None
  }

  /** The field of a `["get", f, …]` operand, read the same way. Further
      elements after `f` are not looked at. */
  function GetField(operand: Option<Json>): Option<string> {
    match operand
    case Some(Arr(inner)) =>
      if Element(inner, 0) == Some(Str("get")) && Element(inner, 1).Some? && Element(inner, 1).value.Str?
      then Some(inner[1].s)
      else None
    case _ => None
  }

  /** What a call that can abort the process returns: a value, or a panic. */
  datatype Outcome<+T> = Returned(result: Result<T>) | Panicked

  /** `format_condition` as the source writes it: in a comparison whose
      operand 1 is a `get`, element 2 is read by indexing, which panics when
      the array has only two elements. */
  function FormatConditionAsWritten(cond: Json): Outcome<string> {
    if !cond.Arr? then Returned(Err(InvalidExpression("The condition is not an array")))
    else if |cond.a| == 0 then Returned(Ok("cond"))
    else if !cond.a[0].Str? then Returned(Err(InvalidExpression("The operator is not a string")))
    else
      var arr := cond.a;
      var op := arr[0].s;
      if op == "!" then
        Returned(Ok(match HasField(Element(arr, 1))
                    case Some(f) => "without " + f
                    case None => "undefined"))
      else if op == "has" then
        if Element(arr, 1).Some? && Element(arr, 1).value.Str?
        then Returned(Ok("has " + arr[1].s))
        else Returned(Err(InvalidExpression("Missing field in 'has' expression")))
      else if op in ComparisonOps then
        match GetField(Element(arr, 1))
        case None => Returned(Err(InvalidExpression("Invalid comparison expression")))
        case Some(field) =>
          if |arr| <= 2 then Panicked
          else
            match LiteralText(arr[2])
            case None => Returned(Err(InvalidExpression("Invalid value in comparison")))
            case Some(text) => Returned(Ok(field + " " + op + " " + text))
      else Returned(Ok("cond"))
  }

  /** `format_condition` with the missing comparison value reported as an
      InvalidExpression error instead of a panic. This is the definition the
      `case` handler uses. Each ensures is one row of the formatter's case
      table. */
  function FormatCondition(cond: Json): (r: Result<string>)
    ensures r.Err? ==> r.error.InvalidExpression?
    ensures !cond.Arr? ==> r.Err?
    ensures cond == Arr([]) ==> r == Ok("cond")
    ensures cond.Arr? && |cond.a| > 0 && !cond.a[0].Str? ==> r.Err?
    ensures Operator(cond) == Some("!") ==>
              r == Ok(match HasField(Arg(cond, 1))
                      case Some(f) => "without " + f
                      case None => "undefined")
    ensures Operator(cond) == Some("has") ==>
              (r.Ok? <==> Arg(cond, 1).Some? && Arg(cond, 1).value.Str?)
              && (r.Ok? ==> r.value == "has " + Arg(cond, 1).value.s)
    ensures Operator(cond).Some? && Operator(cond).value in ComparisonOps ==>
              (r.Ok? <==> GetField(Arg(cond, 1)).Some? && Arg(cond, 2).Some?
                          && LiteralText(Arg(cond, 2).value).Some?)
              && (r.Ok? ==> r.value == GetField(Arg(cond, 1)).value + " " + Operator(cond).value
                                       + " " + LiteralText(Arg(cond, 2).value).value)
    ensures Operator(cond).Some? && Operator(cond).value !in ComparisonOps + {"!", "has"} ==>
              r == Ok("cond")
  {
    if !cond.Arr? then Err(InvalidExpression("The condition is not an array"))
    else if |cond.a| == 0 then Ok("cond")
    else if !cond.a[0].Str? then Err(InvalidExpression("The operator is not a string"))
    else
      var arr := cond.a;
      var op := arr[0].s;
      if op == "!" then
        Ok(match HasField(Element(arr, 1))
           case Some(f) => "without " + f
           case None => "undefined")
      else if op == "has" then
        if Element(arr, 1).Some? && Element(arr, 1).value.Str?
        then Ok("has " + arr[1].s)
        else Err(InvalidExpression("Missing field in 'has' expression"))
      else if op in ComparisonOps then
        match GetField(Element(arr, 1))
        case None => Err(InvalidExpression("Invalid comparison expression"))
        case Some(field) =>
          match Element(arr, 2)
          case None => Err(InvalidExpression("Invalid value in comparison"))
          case Some(value) =>
            match LiteralText(value)
            case None => Err(InvalidExpression("Invalid value in comparison"))
            case Some(text) => Ok(field + " " + op + " " + text)
      else Ok("cond")
  }

  /** The conditions on which the source indexes past the end: a
      comparison operator and a `get` operand, but no third element. */
  predicate MissingComparisonValue(cond: Json) {
    && Operator(cond).Some?
    && Operator(cond).value in ComparisonOps
    && GetField(Arg(cond, 1)).Some?
    && |cond.a| == 2
  }

  /** The source panics exactly on a comparison without a value, and on
      every other condition agrees with the corrected formatter. */
  lemma AsWrittenDiffersOnlyByPanic(cond: Json)
    ensures FormatConditionAsWritten(cond).Panicked? <==> MissingComparisonValue(cond)
    ensures !MissingComparisonValue(cond) ==> FormatConditionAsWritten(cond) == Returned(FormatCondition(cond))
  {
  }

  /** The concrete input: `["==", ["get", "f"]]` makes the source panic,
      where the corrected formatter reports an InvalidExpression error. */
  lemma ComparisonWithoutValuePanics()
    ensures FormatConditionAsWritten(Arr([Str("=="), Arr([Str("get"), Str("f")])])) == Panicked
    ensures FormatCondition(Arr([Str("=="), Arr([Str("get"), Str("f")])])).Err?
  {
  }
}

=== FILE: decimal.dfy ===
/** Decimal text of integers, as Rust's `Display` writes an integer JSON
    number: optional `-`, then digits without leading zeros. */
module Decimal {

  predicate IsDigit(c: char) {
    '0' <= c <= '9'
  }

  predicate AllDigits(s: string) {
    forall i :: 0 <= i < |s| ==> IsDigit(s[i])
  }

  function DigitChar(d: nat): (c: char)
    requires d < 10
    ensures IsDigit(c)
  {
    (('0' as int) + d) as char
  }

  function DigitValue(c: char): (d: nat)
    requires IsDigit(c)
    ensures d < 10
  {
    (c as int) - ('0' as int)
  }

  /** The digits of `n`, most significant first. */
  function NatToString(n: nat): (s: string)
    ensures 1 <= |s|
    ensures AllDigits(s)
    ensures s[0] == '0' ==> n == 0
    decreases n
  {
    if n < 10 then [DigitChar(n)] else NatToString(n / 10) + [DigitChar(n % 10)]
  }

  /** Reads a string of digits back as a number; the inverse of `NatToString`. */
  function ParseNat(s: string): nat
    requires AllDigits(s)
    decreases |s|
  {
    if |s| == 0 then 0 else ParseNat(s[..|s| - 1]) * 10 + DigitValue(s[|s| - 1])
  }

  function IntToString(i: int): (s: string)
    ensures 1 <= |s|
    ensures s[0] == '-' <==> i < 0
  {
    if i < 0 then "-" + NatToString(-i) else NatToString(i)
  }

  lemma {:induction false} ParseNatToString(n: nat)
    ensures ParseNat(NatToString(n)) == n
    decreases n
  {
    if n >= 10 {
      var s := NatToString(n);
      var prefix := NatToString(n / 10);
      assert s == prefix + [DigitChar(n % 10)];
      assert s[..|s| - 1] == prefix;
      ParseNatToString(n / 10);
    }
  }

  /** Distinct numbers never print the same: `IntToString` is injective. */
  lemma IntToStringInjective(a: int, b: int)
    ensures IntToString(a) == IntToString(b) <==> a == b
  {
    if IntToString(a) == IntToString(b) {
      if a < 0 {
        var s := IntToString(a);
        assert s[1..] == NatToString(-a);
        assert s[1..] == NatToString(-b);
        ParseNatToString(-a);
        ParseNatToString(-b);
      } else {
        ParseNatToString(a);
        ParseNatToString(b);
      }
    }
  }
}

=== FILE: errors.dfy ===
/** The two error kinds the legend core reports (src/error.rs), and the
    failure-compatible wrappers the rest of the model returns. The variants
    of `LegendError` that wrap network, image and deserialisation errors
    belong to code outside this model and are not represented. */
module Errors {

  datatype LegendError =
    | InvalidJson(message: string)
    | InvalidExpression(message: string)

  /** Rust's `Option`: an absent key or a missing element. */
  datatype Option<+T> = None | Some(value: T) {
    function GetOr(default: T): T {
      match this
      case Some(v) => v
      case None => default
    }
  }

  /** Rust's `Result<T, LegendError>`; usable with `:-` like the `?` operator. */
  datatype Result<+T> = Ok(value: T) | Err(error: LegendError) {
    predicate IsFailure() {
      Err?
    }

    function PropagateFailure<U>(): Result<U>
      requires Err?
    {
      Err(error)
    }

    function Extract(): T
      requires Ok?
    {
      value
    }
  }
}

=== FILE: examples.dfy ===
/** Worked inputs: what the interpreter yields for a few concrete style
    expressions on a layer `L` without legend metadata (or with one custom
    label). */
module Examples {
  import opened Errors
  import opened Json
  import opened Layers
  import opened Expressions
  import Conditions
  import Decimal

  const Plain := Layer("L", "fill", None, None, None)

  const OneCustomLabel :=
    Layer("L", "fill", None, None,
          Some(Obj(map["legend" := Obj(map["custom-labels" := Arr([Str("X"), Num(7)])])])))

  const MatchTwoValues :=
    Arr([Str("match"), Arr([Str("get"), Str("s")]), Str("a"), Str("#111"), Str("b"), Str("#222"), Str("#999")])

  /** The two branches of `MatchTwoValues`, in order, under any custom labels. */
  lemma TwoValuesWalk(custom: seq<string>)
    ensures WalkPairs(MatchTwoValues.a, 2, 6, 0, custom, MatchValueLabel, true)
            == Ok([Entry(LabelFor(custom, 0, "a"), "#111"), Entry(LabelFor(custom, 1, "b"), "#222")])
  {
    var arr := MatchTwoValues.a;
    assert BranchOperand(arr, 2, 0) == Str("a") && BranchOperand(arr, 2, 1) == Str("b");
    assert BranchColor(arr, 2, 0) == "#111" && BranchColor(arr, 2, 1) == "#222";
    assert MatchValueLabel(Str("a")) == Ok("a") && MatchValueLabel(Str("b")) == Ok("b");
    assert WalkPairs(arr, 2, 6, 2, custom, MatchValueLabel, true) == Ok([]);
    var second := Entry(LabelFor(custom, 1, "b"), "#222");
    assert [second] + [] == [second];
    assert WalkPairs(arr, 2, 6, 1, custom, MatchValueLabel, true) == Ok([second]);
    var first := Entry(LabelFor(custom, 0, "a"), "#111");
    assert [first] + [second] == [first, second];
  }

  /** `MatchTwoValues` on a layer with the given custom labels and default
      entry label: both branches in order, then the default entry. */
  lemma TwoValuesOn(layer: Layer, custom: seq<string>, defaultText: string)
    requires CustomLabels(layer) == Ok(custom)
    requires DefaultEntryLabel(layer, custom, 2) == Ok(defaultText)
    ensures ParseExpression(layer, MatchTwoValues)
            == Ok([Entry(LabelFor(custom, 0, "a"), "#111"), Entry(LabelFor(custom, 1, "b"), "#222"),
                   Entry(defaultText, "#999")])
  {
    var arr := MatchTwoValues.a;
    TwoValuesWalk(custom);
    var entries := [Entry(LabelFor(custom, 0, "a"), "#111"), Entry(LabelFor(custom, 1, "b"), "#222")];
    assert |arr| == 7 && BareGetField(arr[1]) == Some("s") && arr[6] == Str("#999");
    assert ParseMatch(layer, arr) == Ok(entries + [Entry(defaultText, "#999")]);
    assert KindFromStr("match") == Ok(Match);
    assert entries + [Entry(defaultText, "#999")]
           == [Entry(LabelFor(custom, 0, "a"), "#111"), Entry(LabelFor(custom, 1, "b"), "#222"),
               Entry(defaultText, "#999")];
  }

  /** Without legend metadata, branch values label their entries and the
      layer id labels the default entry. */
  lemma MatchEntriesInSourceOrder()
    ensures ParseExpression(Plain, MatchTwoValues)
            == Ok([Entry("a", "#111"), Entry("b", "#222"), Entry("L", "#999")])
  {
    assert CustomLabels(Plain) == Ok([]) && DefaultLabel(Plain) == Ok("L");
    TwoValuesOn(Plain, [], "L");
  }

  /** The legend metadata of `OneCustomLabel`: one usable custom label and
      no default label. */
  lemma OneCustomLabelMetadata()
    ensures CustomLabels(OneCustomLabel) == Ok(["X"]) && DefaultLabel(OneCustomLabel) == Ok("L")
  {
    StringsOfAppend([Str("X")], [Num(7)]);
    StringsOfSingle(Str("X"));
    StringsOfSingle(Num(7));
    assert [Str("X")] + [Num(7)] == [Str("X"), Num(7)];
    LegendEntryLookups(OneCustomLabel, "custom-labels");
    LegendEntryLookups(OneCustomLabel, "default");
  }

  /** One string custom label replaces the first entry only; the number
      in the list is dropped. */
  lemma CustomLabelUsedUp()
    ensures ParseExpression(OneCustomLabel, MatchTwoValues)
            == Ok([Entry("X", "#111"), Entry("b", "#222"), Entry("L", "#999")])
  {
    OneCustomLabelMetadata();
    TwoValuesOn(OneCustomLabel, ["X"], "L");
  }

  /** The condition of `CaseWithDefault`, as its entry label. */
  lemma EqualityConditionLabel()
    ensures Conditions.FormatCondition(Arr([Str("=="), Arr([Str("get"), Str("t")]), Str("x")])) == Ok("t == x")
  {
    var cond := Arr([Str("=="), Arr([Str("get"), Str("t")]), Str("x")]);
    assert Conditions.Operator(cond) == Some("==");
    assert Conditions.GetField(Conditions.Arg(cond, 1)) == Some("t");
    assert Conditions.Arg(cond, 2) == Some(Str("x")) && LiteralText(Str("x")) == Some("x");
    assert "t" + " " + "==" + " " + "x" == "t == x";
  }

  /** A `case` with one condition and an even length: the condition's
      text labels its entry and the layer id labels the default. */
  lemma CaseWithDefault()
    ensures ParseExpression(Plain, Arr([Str("case"), Arr([Str("=="), Arr([Str("get"), Str("t")]), Str("x")]),
                                        Str("#aaa"), Str("#bbb")]))
            == Ok([Entry("t == x", "#aaa"), Entry("L", "#bbb")])
  {
    var cond := Arr([Str("=="), Arr([Str("get"), Str("t")]), Str("x")]);
    var arr := [Str("case"), cond, Str("#aaa"), Str("#bbb")];
    EqualityConditionLabel();
    assert BranchOperand(arr, 1, 0) == cond && BranchColor(arr, 1, 0) == "#aaa";
    assert BranchLabel(arr, 1, 0, [], Conditions.FormatCondition, false) == Ok("t == x");
    assert WalkPairs(arr, 1, 4, 1, [], Conditions.FormatCondition, false) == Ok([]);
    var e := Entry("t == x", "#aaa");
    assert [e] + [] == [e];
    assert WalkPairs(arr, 1, 4, 0, [], Conditions.FormatCondition, false) == Ok([e]);
    assert CustomLabels(Plain) == Ok([]) && DefaultLabel(Plain) == Ok("L");
    assert ParseCase(Plain, arr) == Ok([e] + [Entry("L", "#bbb")]);
    assert KindFromStr("case") == Ok(Case);
    assert [e] + [Entry("L", "#bbb")] == [e, Entry("L", "#bbb")];
  }

  /** The decimal text of the two stops of `InterpolateStops`. */
  lemma StopTexts()
    ensures StopLabel("n", Num(0)) == Ok("n \U{2265} 0")
    ensures StopLabel("n", Num(10)) == Ok("n \U{2265} 10")
  {
    assert Decimal.IntToString(0) == "0";
    assert Decimal.NatToString(10) == Decimal.NatToString(1) + [Decimal.DigitChar(0)];
    assert Decimal.IntToString(10) == "10";
    assert "n" + " \U{2265} " + "0" == "n \U{2265} 0";
    assert "n" + " \U{2265} " + "10" == "n \U{2265} 10";
  }

  /** Each stop yields `<field> ≥ <stop>` with its color, and there
      is no default entry. */
  lemma InterpolateStops()
    ensures ParseExpression(Plain, Arr([Str("interpolate"), Arr([Str("linear")]), Arr([Str("get"), Str("n")]),
                                        Num(0), Str("#a"), Num(10), Str("#b")]))
            == Ok([Entry("n \U{2265} 0", "#a"), Entry("n \U{2265} 10", "#b")])
  {
    var arr := [Str("interpolate"), Arr([Str("linear")]), Arr([Str("get"), Str("n")]),
                Num(0), Str("#a"), Num(10), Str("#b")];
    var labeller := StopLabeller("n");
    StopTexts();
    assert BranchOperand(arr, 3, 0) == Num(0) && BranchOperand(arr, 3, 1) == Num(10);
    assert BranchColor(arr, 3, 0) == "#a" && BranchColor(arr, 3, 1) == "#b";
    assert BranchLabel(arr, 3, 0, [], labeller, true) == Ok("n \U{2265} 0");
    assert BranchLabel(arr, 3, 1, [], labeller, true) == Ok("n \U{2265} 10");
    assert WalkPairs(arr, 3, 7, 2, [], labeller, true) == Ok([]);
    var first := Entry("n \U{2265} 0", "#a");
    var second := Entry("n \U{2265} 10", "#b");
    assert [second] + [] == [second];
    assert WalkPairs(arr, 3, 7, 1, [], labeller, true) == Ok([second]);
    assert [first] + [second] == [first, second];
    assert WalkPairs(arr, 3, 7, 0, [], labeller, true) == Ok([first, second]);
    assert CustomLabels(Plain) == Ok([]);
    assert BareGetField(arr[2]) == Some("n");
    assert ParseInterpolate(Plain, arr) == Ok([first, second]);
    assert KindFromStr("interpolate") == Ok(Interpolate);
  }

  /** `step` is not one of the understood forms. */
  lemma StepIsRejected()
    ensures ParseExpression(Plain, Arr([Str("step"), Arr([Str("get"), Str("n")]), Str("#a"), Num(5), Str("#b")])).Err?
  {
  }
}

=== FILE: expression_facts.dfy ===
/** What each expression form yields, stated over the whole input array:
    which inputs fail, how many entries come out, and which label and color
    each entry carries. */
module ExpressionFacts {
  import opened Errors
  import opened Json
  import opened Layers
  import opened Expressions
  import Decimal
  import Conditions

  /** The branch walk of `match` and `interpolate`: every branch label is
      synthesized (so every synthesis must succeed), and a custom label,
      when there is one, replaces it. */
  lemma EagerWalkSpec(arr: seq<Json>, start: nat, stop: nat, custom: seq<string>, synth: Json -> Result<string>)
    requires stop <= |arr|
    ensures var r := WalkPairs(arr, start, stop, 0, custom, synth, true);
            var n := PairCount(start, stop);
            && (r.Ok? <==> forall j :: 0 <= j < n ==> synth(BranchOperand(arr, start, j)).Ok?)
            && (r.Ok? ==> |r.value| == n && forall j :: 0 <= j < n ==>
                  r.value[j] == Entry(LabelFor(custom, j, synth(BranchOperand(arr, start, j)).value),
                                      BranchColor(arr, start, j)))
  {
    var n := PairCount(start, stop);
    var r := WalkPairs(arr, start, stop, 0, custom, synth, true);
    WalkPairsSpec(arr, start, stop, 0, custom, synth, true);
    forall j | 0 <= j < n
      ensures r.Ok? ==> r.value[j] == Entry(BranchLabel(arr, start, j, custom, synth, true).value,
                                            BranchColor(arr, start, j))
      ensures BranchLabel(arr, start, j, custom, synth, true).Ok? <==> synth(BranchOperand(arr, start, j)).Ok?
      ensures synth(BranchOperand(arr, start, j)).Ok? ==>
                BranchLabel(arr, start, j, custom, synth, true).value
                == LabelFor(custom, j, synth(BranchOperand(arr, start, j)).value)
    {
      PairCountBound(start, stop, j);
    }
  }

  /** The branch walk of `case`: a branch with a custom label takes it
      without looking at its condition; the others synthesize theirs. */
  lemma LazyWalkSpec(arr: seq<Json>, start: nat, stop: nat, custom: seq<string>, synth: Json -> Result<string>)
    requires stop <= |arr|
    ensures var r := WalkPairs(arr, start, stop, 0, custom, synth, false);
            var n := PairCount(start, stop);
            && (r.Ok? <==> forall j :: 0 <= j < n ==> j < |custom| || synth(BranchOperand(arr, start, j)).Ok?)
            && (r.Ok? ==> |r.value| == n && forall j :: 0 <= j < n ==>
                  && r.value[j].color == BranchColor(arr, start, j)
                  && r.value[j].text == if j < |custom| then custom[j] else synth(BranchOperand(arr, start, j)).value)
  {
    var n := PairCount(start, stop);
    var r := WalkPairs(arr, start, stop, 0, custom, synth, false);
    WalkPairsSpec(arr, start, stop, 0, custom, synth, false);
    forall j | 0 <= j < n
      ensures r.Ok? ==> r.value[j] == Entry(BranchLabel(arr, start, j, custom, synth, false).value,
                                            BranchColor(arr, start, j))
      ensures BranchLabel(arr, start, j, custom, synth, false)
              == if j < |custom| then Ok(custom[j]) else synth(BranchOperand(arr, start, j))
    {
      PairCountBound(start, stop, j);
    }
  }

  /** `match`: fails when shorter than 4, when element 1 is not a bare
      `get`, when the legend is malformed, or when a branch value is not a
      string; otherwise yields ⌊(len-3)/2⌋ branch entries in source order,
      plus a default entry exactly when the last element is a string. */
  lemma ParseMatchSpec(layer: Layer, arr: seq<Json>)
    ensures |arr| < 4 ==> ParseMatch(layer, arr).Err? && ParseMatch(layer, arr).error.InvalidExpression?
    ensures |arr| >= 4 && BareGetField(arr[1]).None? ==>
              ParseMatch(layer, arr).Err? && ParseMatch(layer, arr).error.InvalidExpression?
    ensures |arr| >= 4 ==>
              var r := ParseMatch(layer, arr);
              var n := (|arr| - 3) / 2;
              && (r.Ok? <==> BareGetField(arr[1]).Some? && LegendObject(layer).Ok?
                             && forall j :: 0 <= j < n ==> BranchOperand(arr, 2, j).Str?)
              && (r.Ok? ==>
                    var custom := CustomLabels(layer).value;
                    var last := arr[|arr| - 1];
                    && |r.value| == n + (if last.Str? then 1 else 0)
                    && (forall j :: 0 <= j < n ==>
                          r.value[j] == Entry(LabelFor(custom, j, BranchOperand(arr, 2, j).s), BranchColor(arr, 2, j)))
                    && (last.Str? ==> r.value[n] == Entry(LabelFor(custom, n, DefaultLabel(layer).value), last.s)))
  {
    if |arr| >= 4 && BareGetField(arr[1]).Some? && LegendObject(layer).Ok? {
      var custom := CustomLabels(layer).value;
      var n := (|arr| - 3) / 2;
      assert n == PairCount(2, |arr| - 1);
      var walk := WalkPairs(arr, 2, |arr| - 1, 0, custom, MatchValueLabel, true);
      EagerWalkSpec(arr, 2, |arr| - 1, custom, MatchValueLabel);
      var last := arr[|arr| - 1];
      if walk.Err? {
        assert ParseMatch(layer, arr) == Err(walk.error);
      } else if last.Str? {
        assert DefaultEntryLabel(layer, custom, |walk.value|) == Ok(LabelFor(custom, n, DefaultLabel(layer).value));
        assert ParseMatch(layer, arr) == Ok(walk.value + [Entry(LabelFor(custom, n, DefaultLabel(layer).value), last.s)]);
      } else {
        assert ParseMatch(layer, arr) == Ok(walk.value);
      }
    }
  }

  /** `case`: fails when the legend is malformed or when a branch that
      has no custom label has a condition `format_condition` rejects;
      otherwise yields ⌊(len-1)/2⌋ branch entries in source order, plus a
      default entry exactly when the length is even and the last element
      is a string. */
  lemma ParseCaseSpec(layer: Layer, arr: seq<Json>)
    ensures var r := ParseCase(layer, arr);
            var n := PairCount(1, |arr|);
            && (r.Ok? <==> LegendObject(layer).Ok?
                           && forall j :: 0 <= j < n ==>
                                j < |CustomLabels(layer).value|
                                || Conditions.FormatCondition(BranchOperand(arr, 1, j)).Ok?)
            && (r.Ok? ==>
                  var custom := CustomLabels(layer).value;
                  var hasDefault := |arr| % 2 == 0 && |arr| > 0 && arr[|arr| - 1].Str?;
                  && |r.value| == n + (if hasDefault then 1 else 0)
                  && (forall j :: 0 <= j < n ==>
                        && r.value[j].color == BranchColor(arr, 1, j)
                        && r.value[j].text == if j < |custom| then custom[j]
                                              else Conditions.FormatCondition(BranchOperand(arr, 1, j)).value)
                  && (hasDefault ==>
                        r.value[n] == Entry(LabelFor(custom, n, DefaultLabel(layer).value), arr[|arr| - 1].s)))
  {
    if LegendObject(layer).Ok? {
      var custom := CustomLabels(layer).value;
      var n := PairCount(1, |arr|);
      var walk := WalkPairs(arr, 1, |arr|, 0, custom, Conditions.FormatCondition, false);
      LazyWalkSpec(arr, 1, |arr|, custom, Conditions.FormatCondition);
      var hasDefault := |arr| % 2 == 0 && |arr| > 0 && arr[|arr| - 1].Str?;
      if walk.Err? {
        assert ParseCase(layer, arr) == Err(walk.error);
      } else if hasDefault {
        assert DefaultEntryLabel(layer, custom, |walk.value|) == Ok(LabelFor(custom, n, DefaultLabel(layer).value));
        assert ParseCase(layer, arr) == Ok(walk.value + [Entry(LabelFor(custom, n, DefaultLabel(layer).value), arr[|arr| - 1].s)]);
      } else {
        assert ParseCase(layer, arr) == Ok(walk.value);
      }
    }
  }

  /** `interpolate`: fails when shorter than 4, when the legend is
      malformed, when element 2 is not a bare `get`, or when a stop is not
      a number; otherwise yields ⌊(len-3)/2⌋ entries labelled
      `<field> ≥ <stop>` unless a custom label replaces them, and no
      default entry. */
  lemma ParseInterpolateSpec(layer: Layer, arr: seq<Json>)
    ensures |arr| < 4 ==> ParseInterpolate(layer, arr).Err? && ParseInterpolate(layer, arr).error.InvalidExpression?
    ensures |arr| >= 4 ==>
              var r := ParseInterpolate(layer, arr);
              var n := (|arr| - 3) / 2;
              && (r.Ok? <==> LegendObject(layer).Ok? && BareGetField(arr[2]).Some?
                             && forall j :: 0 <= j < n ==> BranchOperand(arr, 3, j).Num?)
              && (r.Ok? ==>
                    var custom := CustomLabels(layer).value;
                    var field := BareGetField(arr[2]).value;
                    && |r.value| == n
                    && forall j :: 0 <= j < n ==>
                         r.value[j] == Entry(LabelFor(custom, j, field + " \U{2265} " + Decimal.IntToString(BranchOperand(arr, 3, j).n)),
                                             BranchColor(arr, 3, j)))
  {
    if |arr| >= 4 && LegendObject(layer).Ok? && BareGetField(arr[2]).Some? {
      var custom := CustomLabels(layer).value;
      var field := BareGetField(arr[2]).value;
      var n := (|arr| - 3) / 2;
      assert n == PairCount(3, |arr|);
      var walk := WalkPairs(arr, 3, |arr|, 0, custom, StopLabeller(field), true);
      EagerWalkSpec(arr, 3, |arr|, custom, StopLabeller(field));
      assert ParseInterpolate(layer, arr) == walk;
    }
  }

  /** Every successful interpretation has read a well-formed legend: the
      literal path reads the layer label, every form reads the custom
      labels. So a malformed `legend` always fails the call. */
  lemma ParseExpressionNeedsLegend(layer: Layer, value: Json)
    ensures ParseExpression(layer, value).Ok? ==> LegendObject(layer).Ok?
  {
  }

  /** The error taxonomy: with a well-formed legend every failure is an
      InvalidExpression, and an InvalidJson failure always comes from a
      malformed legend. */
  lemma ParseExpressionErrorKinds(layer: Layer, value: Json)
    ensures var r := ParseExpression(layer, value);
            && (r.Err? && r.error.InvalidJson? ==> LegendObject(layer).Err?)
            && (LegendObject(layer).Ok? && r.Err? ==> r.error.InvalidExpression?)
  {
    if value.Arr? && |value.a| > 0 && value.a[0].Str? {
      var arr := value.a;
      if LegendObject(layer).Ok? {
        var custom := CustomLabels(layer).value;
        match KindFromStr(arr[0].s)
        case Err(_) =>
        case Ok(Match) =>
          if |arr| >= 4 && BareGetField(arr[1]).Some? {
            WalkPairsErrorFrom(arr, 2, |arr| - 1, 0, custom, MatchValueLabel, true);
          }
        case Ok(Case) =>
          forall c: Json ensures Conditions.FormatCondition(c).Err? ==> Conditions.FormatCondition(c).error.InvalidExpression? { }
          WalkPairsErrorFrom(arr, 1, |arr|, 0, custom, Conditions.FormatCondition, false);
        case Ok(Interpolate) =>
          if |arr| >= 4 && BareGetField(arr[2]).Some? {
            var field := BareGetField(arr[2]).value;
            WalkPairsErrorFrom(arr, 3, |arr|, 0, custom, StopLabeller(field), true);
          }
      }
    }
  }

  /** A branch walk whose label function only fails with InvalidExpression
      only fails with InvalidExpression. */
  lemma {:induction false} WalkPairsErrorFrom(arr: seq<Json>, start: nat, stop: nat, j: nat, custom: seq<string>,
                                              synth: Json -> Result<string>, eager: bool)
    requires stop <= |arr|
    requires forall v :: synth(v).Err? ==> synth(v).error.InvalidExpression?
    ensures var r := WalkPairs(arr, start, stop, j, custom, synth, eager);
            r.Err? ==> r.error.InvalidExpression?
    decreases stop - (start + 2 * j)
  {
    if start + 2 * j + 1 < stop {
      WalkPairsErrorFrom(arr, start, stop, j + 1, custom, synth, eager);
    }
  }

  /** Only an expression array can yield no entries at all: a literal
      always yields exactly one. */
  lemma EmptyResultOnlyFromArrays(layer: Layer, value: Json)
    ensures ParseExpression(layer, value) == Ok([]) ==> value.Arr?
  {
  }

  /** Different stops of the same field get different synthesized labels:
      `<field> ≥ <stop>` determines the stop. */
  lemma StopLabelsDistinct(field: string, u: Json, v: Json)
    requires u.Num? && v.Num? && u != v
    ensures StopLabel(field, u).Ok? && StopLabel(field, v).Ok?
    ensures StopLabel(field, u).value != StopLabel(field, v).value
  {
    var prefix := field + " \U{2265} ";
    var tu := StopLabel(field, u).value;
    var tv := StopLabel(field, v).value;
    if tu == tv {
      assert tu[|prefix|..] == Decimal.IntToString(u.n);
      assert tv[|prefix|..] == Decimal.IntToString(v.n);
      Decimal.IntToStringInjective(u.n, v.n);
    }
  }

  /** Without custom labels, `interpolate` entries for different stops
      carry different labels. */
  lemma InterpolateLabelsDistinct(layer: Layer, arr: seq<Json>, i: nat, j: nat)
    requires CustomLabels(layer) == Ok([])
    requires i < j < (|arr| - 3) / 2
    requires BranchOperand(arr, 3, i) != BranchOperand(arr, 3, j)
    ensures var r := ParseInterpolate(layer, arr);
            r.Ok? ==> |r.value| == (|arr| - 3) / 2 && r.value[i].text != r.value[j].text
  {
    ParseInterpolateSpec(layer, arr);
    if ParseInterpolate(layer, arr).Ok? {
      StopLabelsDistinct(BareGetField(arr[2]).value, BranchOperand(arr, 3, i), BranchOperand(arr, 3, j));
    }
  }
}

=== FILE: expressions.dfy ===
/** The legend-entry interpreter (src/common.rs:11-29, 280-497): a style
    property value plus the layer's legend metadata become an ordered list
    of (label, color) entries. */
module Expressions {
  import opened Errors
  import opened Json
  import opened Layers
  import Decimal
  import Conditions

  /** One legend row before layout: the text shown and the swatch color. */
  datatype Entry = Entry(text: string, color: string)

  /** The expression forms the interpreter understands. */
  datatype ExpressionKind = Match | Case | Interpolate

  function KindName(k: ExpressionKind): string {
    match k
    case Match => "match"
    case Case => "case"
    case Interpolate => "interpolate"
  }

  /** `ExpressionKind::from_str`: exactly the three form names are known,
      each maps back to its own name, and any other tag is an error. */
  function KindFromStr(s: string): (r: Result<ExpressionKind>)
    ensures r.Ok? <==> s in {"match", "case", "interpolate"}
    ensures r.Ok? ==> KindName(r.value) == s
    ensures r.Err? ==> r.error.InvalidExpression?
  {
    if s == "match" then Ok(Match)
    else if s == "case" then Ok(Case)
    else if s == "interpolate" then Ok(Interpolate)
    else Err(InvalidExpression("Unknown expression type: " + s))
  }

  lemma KindNameRoundTrip(k: ExpressionKind)
    ensures KindFromStr(KindName(k)) == Ok(k)
  {
  }

  /** The field of a bare `["get", <string>]` of exactly two elements, the
      only input form `match` and `interpolate` accept. */
  function BareGetField(v: Json): Option<string> {
    if v.Arr? && |v.a| == 2 && v.a[0] == Str("get") && v.a[1].Str? then Some(v.a[1].s) else None
  }

  /** Positional custom labels: entry `k` takes custom label `k` while
      there is one, and its synthesized label after that. */
  function LabelFor(custom: seq<string>, k: nat, synthesized: string): string {
    if k < |custom| then custom[k] else synthesized
  }

  /** The label of one branch. With `eager`, the synthesized label is
      computed (and may fail) even when a custom label replaces it, as
      `match` and `interpolate` validate each value first; otherwise it is
      computed only when the custom labels are used up, as in `case`. */
  function PairLabel(custom: seq<string>, k: nat, operand: Json,
                     synth: Json -> Result<string>, eager: bool): Result<string>
  {
    if eager then
      var s :- synth(operand);
      Ok(LabelFor(custom, k, s))
    else if k < |custom| then Ok(custom[k])
    else synth(operand)
  }

  /** The number of pairs (arr[i], arr[i+1]) for i = start, start+2, …
      while i + 1 < stop. */
  function PairCount(start: nat, stop: nat): nat {
    if stop <= start then 0 else (stop - start) / 2
  }

  /** The value (or condition, or stop) of the `j`-th branch of the walk
      that starts at `start`. */
  function BranchOperand(arr: seq<Json>, start: nat, j: nat): Json
    requires start + 2 * j < |arr|
  {
    arr[start + 2 * j]
  }

  /** Label of the `j`-th branch of the walk that starts at `start`. */
  function BranchLabel(arr: seq<Json>, start: nat, j: nat, custom: seq<string>,
                       synth: Json -> Result<string>, eager: bool): Result<string>
    requires start + 2 * j < |arr|
  {
    PairLabel(custom, j, BranchOperand(arr, start, j), synth, eager)
  }

  /** Color of the `j`-th branch of the walk that starts at `start`. */
  function BranchColor(arr: seq<Json>, start: nat, j: nat): string
    requires start + 2 * j + 1 < |arr|
  {
    ColorOf(arr[start + 2 * j + 1])
  }

  /** The branch loop shared by the three forms: from the `j`-th pair on,
      each pair (arr[i], arr[i+1]) with i = start + 2j and i + 1 < stop
      yields one entry; the first failing label aborts the walk. */
  function WalkPairs(arr: seq<Json>, start: nat, stop: nat, j: nat, custom: seq<string>,
                     synth: Json -> Result<string>, eager: bool): Result<seq<Entry>>
    requires stop <= |arr|
    decreases stop - (start + 2 * j)
  {
    if start + 2 * j + 1 >= stop then Ok([])
    else
      var name :- BranchLabel(arr, start, j, custom, synth, eager);
      var rest :- WalkPairs(arr, start, stop, j + 1, custom, synth, eager);
      Ok([Entry(name, BranchColor(arr, start, j))] + rest)
  }

  lemma PairCountBound(start: nat, stop: nat, j: nat)
    ensures start + 2 * j + 1 < stop <==> j < PairCount(start, stop)
  {
  }

  /** What the branch walk computes: it succeeds exactly when every
      remaining branch label does, then yields one entry per remaining
      pair, in source order, and otherwise fails with the error of the
      first failing branch. */
  lemma {:induction false} WalkPairsSpec(arr: seq<Json>, start: nat, stop: nat, j: nat,
                                         custom: seq<string>, synth: Json -> Result<string>, eager: bool)
    requires stop <= |arr|
    requires j <= PairCount(start, stop)
    ensures var r := WalkPairs(arr, start, stop, j, custom, synth, eager);
            var n := PairCount(start, stop);
            && (r.Ok? <==> forall m :: j <= m < n ==> BranchLabel(arr, start, m, custom, synth, eager).Ok?)
            && (r.Ok? ==> |r.value| == n - j)
            && (r.Ok? ==> forall m :: j <= m < n ==>
                  r.value[m - j] == Entry(BranchLabel(arr, start, m, custom, synth, eager).value,
                                          BranchColor(arr, start, m)))
            && (r.Err? ==> exists m :: (j <= m < n
                  && BranchLabel(arr, start, m, custom, synth, eager).Err?
                  && r.error == BranchLabel(arr, start, m, custom, synth, eager).error
                  && forall m' :: j <= m' < m ==> BranchLabel(arr, start, m', custom, synth, eager).Ok?))
    decreases stop - (start + 2 * j)
  {
    var n := PairCount(start, stop);
    PairCountBound(start, stop, j);
    if j < n {
      PairCountBound(start, stop, j + 1);
      WalkPairsSpec(arr, start, stop, j + 1, custom, synth, eager);
      var head := BranchLabel(arr, start, j, custom, synth, eager);
      var rest := WalkPairs(arr, start, stop, j + 1, custom, synth, eager);
      var r := WalkPairs(arr, start, stop, j, custom, synth, eager);
      if head.Ok? && rest.Ok? {
        assert r.value == [Entry(head.value, BranchColor(arr, start, j))] + rest.value;
        forall m | j <= m < n
          ensures r.value[m - j] == Entry(BranchLabel(arr, start, m, custom, synth, eager).value,
                                          BranchColor(arr, start, m))
        {
          if m > j {
            assert r.value[m - j] == rest.value[m - (j + 1)];
          }
        }
      } else if head.Err? {
        assert r == Err(head.error);
      } else {
        assert r == Err(rest.error);
        var m :| j + 1 <= m < n
          && BranchLabel(arr, start, m, custom, synth, eager).Err?
          && rest.error == BranchLabel(arr, start, m, custom, synth, eager).error
          && forall m' :: j + 1 <= m' < m ==> BranchLabel(arr, start, m', custom, synth, eager).Ok?;
        assert forall m' :: j <= m' < m ==> BranchLabel(arr, start, m', custom, synth, eager).Ok?;
      }
    }
  }

  /** The synthesized label of a `match` branch: its value, which must be a string. */
  function MatchValueLabel(v: Json): Result<string> {
    if v.Str? then Ok(v.s) else Err(InvalidExpression("Value is not a string in 'match'"))
  }

  /** The synthesized label of an `interpolate` stop: `<field> ≥ <stop>`;
      the stop must be a number. */
  function StopLabel(field: string, v: Json): Result<string> {
    if v.Num? then Ok(field + " \U{2265} " + Decimal.IntToString(v.n))
    else Err(InvalidExpression("Value is not a number in 'interpolate'"))
  }

  /** `StopLabel` for a fixed field, as the branch walk consumes it. */
  function StopLabeller(field: string): Json -> Result<string> {
    v => StopLabel(field, v)
  }

  /** The default entry's label: the next unused custom label, else the
      layer's default label. */
  function DefaultEntryLabel(layer: Layer, custom: seq<string>, k: nat): Result<string> {
    if k < |custom| then Ok(custom[k]) else DefaultLabel(layer)
  }

  /** `["match", ["get", f], v1, c1, …, default]`. */
  function ParseMatch(layer: Layer, arr: seq<Json>): Result<seq<Entry>> {
    if |arr| < 4 then Err(InvalidExpression("Array 'match' too short"))
    else if BareGetField(arr[1]).None? then
      Err(InvalidExpression("Invalid 'get' field in 'match' expression"))
    else
      var custom :- CustomLabels(layer);
      var entries :- WalkPairs(arr, 2, |arr| - 1, 0, custom, MatchValueLabel, true);
      var last := arr[|arr| - 1];
      if last.Str? then
        var name :- DefaultEntryLabel(layer, custom, |entries|);
        Ok(entries + [Entry(name, last.s)])
      else Ok(entries)
  }

  /** `["case", cond1, c1, …, default?]`: a default exists only when the
      array has even length and ends in a string. */
  function ParseCase(layer: Layer, arr: seq<Json>): Result<seq<Entry>> {
    var custom :- CustomLabels(layer);
    var entries :- WalkPairs(arr, 1, |arr|, 0, custom, Conditions.FormatCondition, false);
    if |arr| % 2 == 0 && |arr| > 0 && arr[|arr| - 1].Str? then
      var name :- DefaultEntryLabel(layer, custom, |entries|);
      Ok(entries + [Entry(name, arr[|arr| - 1].s)])
    else Ok(entries)
  }

  /** `["interpolate", type, ["get", f], stop1, c1, …]`: never a default entry. */
  function ParseInterpolate(layer: Layer, arr: seq<Json>): Result<seq<Entry>> {
    if |arr| < 4 then Err(InvalidExpression("Array 'interpolate' too short"))
    else
      var custom :- CustomLabels(layer);
      match BareGetField(arr[2])
      case None => Err(InvalidExpression("Invalid 'get' field in 'interpolate' expression"))
      case Some(field) => WalkPairs(arr, 3, |arr|, 0, custom, StopLabeller(field), true)
  }

  /** `parse_expression`: a bare literal becomes one entry under the
      layer's label; an array is dispatched on its string tag. */
  function ParseExpression(layer: Layer, value: Json): (r: Result<seq<Entry>>)
    ensures !value.Arr? && LiteralText(value).None? ==> r.Err? && r.error.InvalidExpression?
    ensures !value.Arr? && LiteralText(value).Some? ==>
              (r.Ok? <==> LayerLabel(layer).Ok?)
              && (r.Ok? ==> r.value == [Entry(LayerLabel(layer).value, LiteralText(value).value)])
    ensures value.Arr? && (|value.a| == 0 || !value.a[0].Str?) ==> r.Err? && r.error.InvalidExpression?
    ensures value.Arr? && |value.a| > 0 && value.a[0].Str? && value.a[0].s !in {"match", "case", "interpolate"}
            ==> r.Err? && r.error.InvalidExpression?
    ensures value.Arr? && |value.a| > 0 && value.a[0] == Str("match") ==> r == ParseMatch(layer, value.a)
    ensures value.Arr? && |value.a| > 0 && value.a[0] == Str("case") ==> r == ParseCase(layer, value.a)
    ensures value.Arr? && |value.a| > 0 && value.a[0] == Str("interpolate") ==> r == ParseInterpolate(layer, value.a)
  {
    if !value.Arr? then
      match LiteralText(value)
      case None =>
        Err(InvalidExpression("The value is neither a string, a number, nor a boolean. Layer: " + layer.id))
      case Some(text) =>
        var name :- LayerLabel(layer);
        Ok([Entry(name, text)])
    else
      var arr := value.a;
      if |arr| == 0 then Err(InvalidExpression("Empty array in the expression. Layer: " + layer.id))
      else if !arr[0].Str? then Err(InvalidExpression("The first element is not a string. Layer: " + layer.id))
      else
        var kind :- KindFromStr(arr[0].s);
        match kind
        case Match => ParseMatch(layer, arr)
        case Case => ParseCase(layer, arr)
        case Interpolate => ParseInterpolate(layer, arr)
  }
}

=== FILE: json.dfy ===
/** The JSON values the style document is made of (serde_json's `Value`).
    Numbers are modelled as integers; see README for what that leaves out. */
module Json {
  import opened Errors
  import Decimal

  datatype Json =
    | Null
    | Bool(b: bool)
    | Num(n: int)
    | Str(s: string)
    | Arr(a: seq<Json>)
    | Obj(o: map<string, Json>)

  /** `Value::get(key)`: a key lookup on an object, `None` on anything else. */
  function Get(v: Json, key: string): (r: Option<Json>)
    ensures r.Some? <==> v.Obj? && key in v.o
    ensures r.Some? ==> r.value == v.o[key]
  {
    if v.Obj? && key in v.o then Some(v.o[key]) else None
  }

  /** Follows a path of object keys from `v`, as a chain of `get` calls. */
  function At(v: Json, path: seq<string>): Option<Json>
    decreases |path|
  {
    if |path| == 0 then Some(v)
    else
      match Get(v, path[0])
      case None => None
      case Some(child) => At(child, path[1..])
  }

  /** `Vec::get(i)` on an array's elements. */
  function Element(a: seq<Json>, i: nat): (r: Option<Json>)
    ensures r.Some? <==> i < |a|
    ensures r.Some? ==> r.value == a[i]
  {
    if i < |a| then Some(a[i]) else None
  }

  function BoolText(b: bool): string {
    if b then "true" else "false"
  }

  /** The textual form of a scalar: a string as itself, a number in
      decimal, a boolean as `true`/`false`; `None` for null, arrays and
      objects. */
  function LiteralText(v: Json): (r: Option<string>)
    ensures r.Some? <==> v.Str? || v.Num? || v.Bool?
    ensures v.Str? ==> r == Some(v.s)
    ensures v.Num? ==> r == Some(Decimal.IntToString(v.n))
    ensures v.Bool? ==> r == Some(if v.b then "true" else "false")
  {
    match v
    case Str(s) => Some(s)
    case Num(n) => Some(Decimal.IntToString(n))
    case Bool(b) => Some(BoolText(b))
    case _ => None
  }

  /** A color operand as the branch walks read it: the string itself, and
      `#cccccc` for anything that is not a string. */
  const FallbackColor: string := "#cccccc"

  function ColorOf(v: Json): string {
    if v.Str? then v.s else FallbackColor
  }
}

=== FILE: layers.dfy ===
/** A style layer and the accessors that read its `metadata.legend`
    object (src/common.rs:31-101), plus `extract_color` (src/common.rs:208-218). */
module Layers {
  import opened Errors
  import opened Json

  datatype Layer = Layer(
    id: string,
    layerType: string,
    paint: Option<Json>,
    layout: Option<Json>,
    metadata: Option<Json>)

  /** Reference lookup: the value at `metadata.legend.<key>`, if any. */
  function LegendEntry(layer: Layer, key: string): Option<Json> {
    match layer.metadata
    case None => None
    case Some(m) => At(m, ["legend", key])
  }

  /** The `legend` object of the layer's metadata: absent metadata, a
      metadata value that is not an object, or a missing `legend` key give
      `None`; a `legend` that is present but not an object is an error. */
  function LegendObject(layer: Layer): (r: Result<Option<map<string, Json>>>)
    ensures r.Err? <==> layer.metadata.Some? && At(layer.metadata.value, ["legend"]).Some?
                        && !At(layer.metadata.value, ["legend"]).value.Obj?
    ensures r.Err? ==> r.error.InvalidJson?
    ensures r.Ok? && r.value.Some? ==> layer.metadata.Some?
                                       && At(layer.metadata.value, ["legend"]) == Some(Obj(r.value.value))
    ensures r.Ok? && r.value.None? ==> layer.metadata.None? || At(layer.metadata.value, ["legend"]).None?
  {
    match layer.metadata
    case None => Ok(None)
    case Some(m) =>
      match Get(m, "legend")
      case None => Ok(None)
      case Some(legend) =>
        if legend.Obj? then Ok(Some(legend.o))
        else Err(InvalidJson("The 'legend' field is not an object"))
  }

  /** The path `legend.<key>` is two lookups. */
  lemma LegendEntryLookups(layer: Layer, key: string)
    ensures LegendEntry(layer, key) == match layer.metadata
                                       case None => None
                                       case Some(m) =>
                                         match Get(m, "legend")
                                         case None => None
                                         case Some(legend) => Get(legend, key)
  {
    assert ["legend", key][1..] == [key];
    assert [key][1..] == [];
    if layer.metadata.Some? {
      var m := layer.metadata.value;
      if Get(m, "legend").Some? {
        var legend := Get(m, "legend").value;
        assert At(m, ["legend", key]) == At(legend, [key]);
        if Get(legend, key).Some? {
          assert At(legend, [key]) == At(Get(legend, key).value, []);
        }
      }
    }
  }

  /** A string-valued field of the legend object, or `fallback` when the
      legend or the field is missing or the field is not a string. */
  function LegendString(layer: Layer, key: string, fallback: string): (r: Result<string>)
    ensures r.Ok? <==> LegendObject(layer).Ok?
    ensures r.Ok? ==> r.value == match LegendEntry(layer, key)
                                 case Some(Str(s)) => s
                                 case _ => fallback
  {
    LegendEntryLookups(layer, key);
    var legend :- LegendObject(layer);
    Ok(if legend.Some? && key in legend.value && legend.value[key].Str?
       then legend.value[key].s
       else fallback)
  }

  /** The layer's display label: `legend.label` when it is a string,
      otherwise the layer id. */
  function LayerLabel(layer: Layer): (r: Result<string>)
    ensures r.Ok? <==> LegendObject(layer).Ok?
    ensures r.Err? ==> r.error.InvalidJson?
    ensures r.Ok? ==> r.value == match LegendEntry(layer, "label")
                                 case Some(Str(s)) => s
                                 case _ => layer.id
  {
    LegendString(layer, "label", layer.id)
  }

  /** The label of an expression's default branch: `legend.default` when
      it is a string, otherwise the layer id. */
  function DefaultLabel(layer: Layer): (r: Result<string>)
    ensures r.Ok? <==> LegendObject(layer).Ok?
    ensures r.Err? ==> r.error.InvalidJson?
    ensures r.Ok? ==> r.value == match LegendEntry(layer, "default")
                                 case Some(Str(s)) => s
                                 case _ => layer.id
  {
    LegendString(layer, "default", layer.id)
  }

  /** The string elements of `xs`, in order; other elements are dropped. */
  function StringsOf(xs: seq<Json>): seq<string>
    decreases |xs|
  {
    if |xs| == 0 then []
    else (if xs[0].Str? then [xs[0].s] else []) + StringsOf(xs[1..])
  }

  /** `legend.custom-labels`: its string elements in order, and empty when
      the field is absent or not an array. */
  function CustomLabels(layer: Layer): (r: Result<seq<string>>)
    ensures r.Ok? <==> LegendObject(layer).Ok?
    ensures r.Err? ==> r.error.InvalidJson?
    ensures r.Ok? ==> r.value == match LegendEntry(layer, "custom-labels")
                                 case Some(Arr(xs)) => StringsOf(xs)
                                 case _ => []
  {
    LegendEntryLookups(layer, "custom-labels");
    var legend :- LegendObject(layer);
    Ok(if legend.Some? && "custom-labels" in legend.value && legend.value["custom-labels"].Arr?
       then StringsOf(legend.value["custom-labels"].a)
       else [])
  }

  /** Filtering distributes over concatenation: together with the
      one-element cases below this pins `StringsOf` down as "keep exactly
      the strings, in order". */
  lemma {:induction false} StringsOfAppend(xs: seq<Json>, ys: seq<Json>)
    ensures StringsOf(xs + ys) == StringsOf(xs) + StringsOf(ys)
    decreases |xs|
  {
    if |xs| == 0 {
      assert xs + ys == ys;
    } else {
      var head := if xs[0].Str? then [xs[0].s] else [];
      assert (xs + ys)[0] == xs[0] && (xs + ys)[1..] == xs[1..] + ys;
      assert StringsOf(xs + ys) == head + StringsOf(xs[1..] + ys);
      StringsOfAppend(xs[1..], ys);
      assert head + (StringsOf(xs[1..]) + StringsOf(ys)) == (head + StringsOf(xs[1..])) + StringsOf(ys);
    }
  }

  lemma StringsOfSingle(x: Json)
    ensures x.Str? ==> StringsOf([x]) == [x.s]
    ensures !x.Str? ==> StringsOf([x]) == []
  {
  }

  /** A list made only of strings passes through unchanged, element by element. */
  lemma {:induction false} StringsOfAllStrings(xs: seq<Json>)
    requires forall i :: 0 <= i < |xs| ==> xs[i].Str?
    ensures |StringsOf(xs)| == |xs|
    ensures forall i :: 0 <= i < |xs| ==> StringsOf(xs)[i] == xs[i].s
    decreases |xs|
  {
    if |xs| > 0 {
      StringsOfAllStrings(xs[1..]);
    }
  }

  /** Every kept label is one of the input strings. */
  lemma {:induction false} StringsOfSound(xs: seq<Json>)
    ensures forall s :: s in StringsOf(xs) ==> Str(s) in xs
    decreases |xs|
  {
    if |xs| > 0 {
      StringsOfSound(xs[1..]);
      forall s | s in StringsOf(xs)
        ensures Str(s) in xs
      {
        if !(xs[0].Str? && s == xs[0].s) {
          assert s in StringsOf(xs[1..]);
          assert Str(s) in xs[1..];
        }
      }
    }
  }

  /** `extract_color`: a string is the color itself, an array (an
      expression) stands for the gray placeholder, and anything else, or
      a missing value, is an InvalidJson error. */
  function ExtractColor(value: Option<Json>): (r: Result<string>)
    ensures r.Ok? <==> value.Some? && (value.value.Str? || value.value.Arr?)
    ensures r.Err? ==> r.error.InvalidJson?
    ensures r.Ok? ==> r.value == ColorOf(value.value)
  {
    match value
    case None => Err(InvalidJson("Missing JSON value"))
    case Some(Str(s)) => Ok(s)
    case Some(Arr(_)) => Ok(FallbackColor)
    case Some(_) => Err(InvalidJson("JSON value is neither a string nor an array"))
  }
}

=== FILE: legend.dfy ===
/** The legend front end (src/lib.rs): per-layer type dispatch and lookup
    of one layer by id. Renderers outside this model (circle, symbol,
    raster and the default rectangle) are passed in as functions that
    report a size or an error. */
module Legend {
  import opened Errors
  import opened Json
  import opened Layers
  import opened Panels

  datatype Size = Size(width: nat, height: nat)

  /** A layer renderer outside this model: (layer, default width, default
      height, draw title) to a size or an error. A symbol renderer closes
      over the sprite data. */
  type Renderer = (Layer, nat, nat, bool) -> Result<Size>

  datatype Collaborators = Collaborators(circle: Renderer, symbol: Renderer, raster: Renderer, fallback: Renderer)

  /** What one layer renders to. */
  datatype Drawing =
    | FillPanel(panel: Panel)
    | LinePanel(panel: Panel)
    | Delegated(size: Size)
    | Omitted
  {
    function Width(): nat {
      match this
      case FillPanel(p) => p.width
      case LinePanel(p) => p.width
      case Delegated(s) => s.width
      case Omitted => 0
    }

    function Height(): nat {
      match this
      case FillPanel(p) => p.height
      case LinePanel(p) => p.height
      case Delegated(s) => s.height
      case Omitted => 0
    }
  }

  datatype Style = Style(layers: seq<Layer>)

  datatype Settings = Settings(defaultWidth: nat, defaultHeight: nat, hasLabel: bool, includeRaster: bool)

  /** The paint object of a fill, line or circle layer. */
  function PaintObject(layer: Layer): Result<map<string, Json>> {
    match layer.paint
    case None => Err(InvalidJson("Missing the 'paint' field for layer '" + layer.id + "'"))
    case Some(Obj(o)) => Ok(o)
    case Some(_) => Err(InvalidJson("The 'paint' field is not an object for layer '" + layer.id + "'"))
  }

  function MapResult(r: Result<Panel>, wrap: Panel -> Drawing): Result<Drawing> {
    match r
    case Ok(p) => Ok(wrap(p))
    case Err(e) => Err(e)
  }

  /** The outcome of a renderer outside this model, as a drawing. */
  function Delegate(r: Result<Size>): Result<Drawing> {
    match r
    case Ok(s) => Ok(Delegated(s))
    case Err(e) => Err(e)
  }

  /** `render_layer_svg`: dispatch on the layer type. Fill, line and
      circle need a paint object; a raster layer is skipped with size 0x0
      unless rasters are included; symbol and every other type go to their
      own renderers. */
  function RenderLayerSvg(layer: Layer, defaultWidth: nat, defaultHeight: nat, renderLabel: bool,
                          includeRaster: bool, env: Collaborators): (r: Result<Drawing>)
    ensures layer.layerType in {"fill", "line", "circle"} && PaintObject(layer).Err? ==>
              r.Err? && r.error.InvalidJson?
    ensures layer.layerType == "fill" && PaintObject(layer).Ok? ==>
              var panel := RenderFill(layer, PaintObject(layer).value, defaultWidth, defaultHeight, renderLabel);
              && (r.Ok? <==> panel.Ok?)
              && (r.Ok? ==> r.value == FillPanel(panel.value))
              && (r.Err? ==> r.error == panel.error)
    ensures layer.layerType == "line" && PaintObject(layer).Ok? ==>
              var panel := RenderLine(layer, PaintObject(layer).value, defaultWidth, defaultHeight, renderLabel);
              && (r.Ok? <==> panel.Ok?)
              && (r.Ok? ==> r.value == LinePanel(panel.value))
              && (r.Err? ==> r.error == panel.error)
    ensures layer.layerType == "circle" && PaintObject(layer).Ok? ==>
              r == Delegate(env.circle(layer, defaultWidth, defaultHeight, renderLabel))
    ensures layer.layerType == "symbol" ==>
              r == Delegate(env.symbol(layer, defaultWidth, defaultHeight, renderLabel))
    ensures layer.layerType == "raster" && includeRaster ==>
              r == Delegate(env.raster(layer, defaultWidth, defaultHeight, renderLabel))
    ensures layer.layerType == "raster" && !includeRaster ==> r == Ok(Omitted)
    ensures layer.layerType !in {"fill", "line", "circle", "symbol", "raster"} ==>
              r == Delegate(env.fallback(layer, defaultWidth, defaultHeight, renderLabel))
  {
    var t := layer.layerType;
    if t == "fill" || t == "line" || t == "circle" then
      var paint :- PaintObject(layer);
      if t == "fill" then
        MapResult(RenderFill(layer, paint, defaultWidth, defaultHeight, renderLabel), p => FillPanel(p))
      else if t == "line" then
        MapResult(RenderLine(layer, paint, defaultWidth, defaultHeight, renderLabel), p => LinePanel(p))
      else Delegate(env.circle(layer, defaultWidth, defaultHeight, renderLabel))
    else if t == "symbol" then Delegate(env.symbol(layer, defaultWidth, defaultHeight, renderLabel))
    else if t == "raster" && includeRaster then Delegate(env.raster(layer, defaultWidth, defaultHeight, renderLabel))
    else if t == "raster" then Ok(Omitted)
    else Delegate(env.fallback(layer, defaultWidth, defaultHeight, renderLabel))
  }

  /** The index of the first layer with the given id, if any. */
  function FindLayer(layers: seq<Layer>, id: string): (r: Option<nat>)
    ensures r.None? <==> forall i :: 0 <= i < |layers| ==> layers[i].id != id
    ensures r.Some? ==> r.value < |layers| && layers[r.value].id == id
                        && forall i :: 0 <= i < r.value ==> layers[i].id != id
    decreases |layers|
  {
    if |layers| == 0 then None
    else if layers[0].id == id then Some(0)
    else
      match FindLayer(layers[1..], id)
      case None => None
      case Some(i) => Some(i + 1)
  }

  /** `render_layer`: an unknown id is an InvalidJson error; otherwise the
      first layer with that id is rendered, with the title flag taken from
      the call when given and from the settings otherwise. */
  function RenderLayer(style: Style, id: string, hasLabel: Option<bool>, settings: Settings,
                       env: Collaborators): (r: Result<Drawing>)
    ensures (forall i :: 0 <= i < |style.layers| ==> style.layers[i].id != id) ==>
              r.Err? && r.error.InvalidJson?
    ensures forall i :: (0 <= i < |style.layers| && style.layers[i].id == id
                         && forall k :: 0 <= k < i ==> style.layers[k].id != id)
              ==> r == RenderLayerSvg(style.layers[i], settings.defaultWidth, settings.defaultHeight,
                                  hasLabel.GetOr(settings.hasLabel), settings.includeRaster, env)
  {
    match FindLayer(style.layers, id)
    case None => Err(InvalidJson("Layer with ID '" + id + "' not found"))
    case Some(i) =>
      RenderLayerSvg(style.layers[i], settings.defaultWidth, settings.defaultHeight,
                     hasLabel.GetOr(settings.hasLabel), settings.includeRaster, env)
  }
}

=== FILE: panels.dfy ===
/** The vertical layout of the fill and line legends (src/fill.rs,
    src/line.rs): one row per legend entry, 30 units apart, under an
    optional title. The SVG markup itself is not modelled, only the
    numbers and texts that go into it. */
module Panels {
  import opened Errors
  import opened Json
  import opened Layers
  import opened Expressions

  /** One drawn entry: the swatch's y, the y of its text, and the entry. */
  datatype Row = Row(y: int, textY: int, text: string, color: string)

  /** A rendered legend panel: its size, the bold title (when drawn), the
      rows, and the single swatch color drawn when there are no entries. */
  datatype Panel = Panel(
    width: nat,
    height: nat,
    title: Option<string>,
    rows: seq<Row>,
    swatch: Option<string>)

  /** Where the first row sits without a title, and how far below a row's
      y its text is placed. */
  datatype Geometry = Geometry(colorKey: string, baseY: int, textDy: int)

  /** Fill: swatch rectangles from y = 10, text 15 below. */
  const FillGeometry := Geometry("fill-color", 10, 15)

  /** Line: stroke lines from y = 20, text 5 below. */
  const LineGeometry := Geometry("line-color", 20, 5)

  /** Distance between consecutive rows, and the extra height of a title. */
  const RowPitch := 30
  const TitleHeight := 20

  /** The rows of `entries`, top to bottom, starting at `initY`. */
  function Rows(entries: seq<Entry>, initY: int, textDy: int): seq<Row> {
    seq(|entries|, i requires 0 <= i < |entries| =>
      Row(initY + RowPitch * i, initY + RowPitch * i + textDy, entries[i].text, entries[i].color))
  }

  /** The title row when `hasLabel` is set: the layer label. */
  function Title(layer: Layer, hasLabel: bool): Result<Option<string>> {
    if hasLabel then
      var name :- LayerLabel(layer);
      Ok(Some(name))
    else Ok(None)
  }

  /** The body shared by `render_fill` and `render_line`. */
  function RenderPanel(layer: Layer, paint: map<string, Json>, g: Geometry,
                       defaultWidth: nat, defaultHeight: nat, hasLabel: bool): Result<Panel>
  {
    if g.colorKey !in paint then
      Err(InvalidJson("Missing the '" + g.colorKey + "' field in paint"))
    else
      var expr := paint[g.colorKey];
      var entries :- ParseExpression(layer, expr);
      if |entries| > 0 then
        var title :- Title(layer, hasLabel);
        var initY := if hasLabel then g.baseY + RowPitch else g.baseY;
        var height := 20 + RowPitch * |entries| + (if hasLabel then TitleHeight else 0);
        Ok(Panel(defaultWidth, height, title, Rows(entries, initY, g.textDy), None))
      else
        var color :- ExtractColor(Some(expr));
        var title :- Title(layer, hasLabel);
        Ok(Panel(defaultWidth, defaultHeight, title, [], Some(color)))
  }

  /** `render_fill`: missing `fill-color` is an InvalidJson error; with n
      entries the height is 20 + 30n (40 + 30n under a title), row i sits
      at 10 + 30i (40 + 30i under a title) with its text 15 lower; with no
      entries the height is the default height; the width is always the
      default width. */
  function RenderFill(layer: Layer, paint: map<string, Json>,
                      defaultWidth: nat, defaultHeight: nat, hasLabel: bool): (r: Result<Panel>)
    ensures "fill-color" !in paint ==> r.Err? && r.error.InvalidJson?
    ensures r.Ok? ==> r.value.width == defaultWidth
    ensures r.Ok? && |r.value.rows| > 0 ==>
              r.value.height == (if hasLabel then 40 else 20) + 30 * |r.value.rows|
    ensures r.Ok? && |r.value.rows| == 0 ==> r.value.height == defaultHeight
    ensures r.Ok? ==> forall i :: 0 <= i < |r.value.rows| ==>
              && r.value.rows[i].y == (if hasLabel then 40 else 10) + 30 * i
              && r.value.rows[i].textY == r.value.rows[i].y + 15
  {
    RenderPanel(layer, paint, FillGeometry, defaultWidth, defaultHeight, hasLabel)
  }

  /** `render_line`: missing `line-color` is an InvalidJson error; with n
      entries the height is 20 + 30n, plus 20 under a title; row i's
      stroke is at 20 + 30i (50 + 30i under a title) with its text 5
      lower; with no entries the height is the default height; the width
      is always the default width. */
  function RenderLine(layer: Layer, paint: map<string, Json>,
                      defaultWidth: nat, defaultHeight: nat, hasLabel: bool): (r: Result<Panel>)
    ensures "line-color" !in paint ==> r.Err? && r.error.InvalidJson?
    ensures r.Ok? ==> r.value.width == defaultWidth
    ensures r.Ok? && |r.value.rows| > 0 ==>
              r.value.height == 20 + 30 * |r.value.rows| + (if hasLabel then 20 else 0)
    ensures r.Ok? && |r.value.rows| == 0 ==> r.value.height == defaultHeight
    ensures r.Ok? ==> forall i :: 0 <= i < |r.value.rows| ==>
              && r.value.rows[i].y == (if hasLabel then 50 else 20) + 30 * i
              && r.value.rows[i].textY == r.value.rows[i].y + 5
  {
    RenderPanel(layer, paint, LineGeometry, defaultWidth, defaultHeight, hasLabel)
  }

  /** A panel renders exactly when its color property is present and the
      interpreter accepts it: the title and the empty-list swatch can
      never fail afterwards. The rows are then the entries, in order and
      strictly 30 apart. */
  lemma RenderPanelFailsOnlyOnExpression(layer: Layer, paint: map<string, Json>, g: Geometry,
                                         defaultWidth: nat, defaultHeight: nat, hasLabel: bool)
    ensures var r := RenderPanel(layer, paint, g, defaultWidth, defaultHeight, hasLabel);
            && (r.Ok? <==> g.colorKey in paint && ParseExpression(layer, paint[g.colorKey]).Ok?)
            && (r.Err? && g.colorKey in paint ==> r == ParseExpression(layer, paint[g.colorKey]).PropagateFailure())
            && (r.Ok? ==>
                  var entries := ParseExpression(layer, paint[g.colorKey]).value;
                  && |r.value.rows| == |entries|
                  && (forall i :: 0 <= i < |entries| ==>
                        r.value.rows[i].text == entries[i].text && r.value.rows[i].color == entries[i].color)
                  && (forall i :: 0 < i < |entries| ==> r.value.rows[i].y == r.value.rows[i - 1].y + RowPitch)
                  && (r.value.title.Some? <==> hasLabel)
                  && (r.value.swatch.Some? <==> |entries| == 0))
  {
  }
}

=== FILE: stacking.dfy ===
/** `render_all` (src/lib.rs:121-171): every layer is rendered in
    iteration order and stacked below the previous one, with a separator
    line after each layer but the last. The first failing layer aborts the
    whole picture. */
module Stacking {
  import opened Errors
  import opened Layers
  import opened Legend

  /** A horizontal separator from x = 0 to `x2` at height `y`. */
  datatype Separator = Separator(y: nat, x2: nat)

  /** The combined picture: its size, the y offset of each layer in
      iteration order, and the separators top to bottom. */
  datatype Stacked = Stacked(width: nat, height: nat, offsets: seq<nat>, separators: seq<Separator>)

  /** The layers in iteration order: as listed, or reversed when `rev`. */
  function IterationOrder(layers: seq<Layer>, rev: bool): (ordered: seq<Layer>)
    ensures |ordered| == |layers|
    ensures forall t :: 0 <= t < |layers| ==> ordered[t] == layers[if rev then |layers| - 1 - t else t]
  {
    seq(|layers|, t requires 0 <= t < |layers| => layers[if rev then |layers| - 1 - t else t])
  }

  /** How one layer is drawn inside the combined picture. */
  type LayerRenderer = Layer -> Result<Drawing>

  /** `render_layer_svg` with the legend's settings, as `render_all` calls it. */
  function RenderWith(settings: Settings, env: Collaborators): LayerRenderer {
    layer => RenderLayerSvg(layer, settings.defaultWidth, settings.defaultHeight,
                            settings.hasLabel, settings.includeRaster, env)
  }

  /** Reference semantics of the render loop: the drawings of `layers`
      in order, or the error of the first layer that fails. */
  function RenderSeq(layers: seq<Layer>, render: LayerRenderer): Result<seq<Drawing>>
    decreases |layers|
  {
    if |layers| == 0 then Ok([])
    else
      var before :- RenderSeq(layers[..|layers| - 1], render);
      var d :- render(layers[|layers| - 1]);
      Ok(before + [d])
  }

  function SumHeights(ds: seq<Drawing>): nat
    decreases |ds|
  {
    if |ds| == 0 then 0 else SumHeights(ds[..|ds| - 1]) + ds[|ds| - 1].Height()
  }

  function MaxWidth(ds: seq<Drawing>): nat
    decreases |ds|
  {
    if |ds| == 0 then 0
    else
      var w := MaxWidth(ds[..|ds| - 1]);
      var last := ds[|ds| - 1].Width();
      if last > w then last else w
  }

  /** `MaxWidth` is the largest width of the list (0 when it is empty). */
  lemma {:induction false} MaxWidthIsMaximum(ds: seq<Drawing>)
    ensures forall i :: 0 <= i < |ds| ==> ds[i].Width() <= MaxWidth(ds)
    ensures |ds| > 0 ==> exists i :: 0 <= i < |ds| && ds[i].Width() == MaxWidth(ds)
    ensures |ds| == 0 ==> MaxWidth(ds) == 0
    decreases |ds|
  {
    if |ds| > 0 {
      var prefix := ds[..|ds| - 1];
      MaxWidthIsMaximum(prefix);
      assert forall i :: 0 <= i < |prefix| ==> prefix[i] == ds[i];
      if |prefix| > 0 {
        var k :| 0 <= k < |prefix| && prefix[k].Width() == MaxWidth(prefix);
        assert ds[k].Width() == MaxWidth(prefix);
      }
    }
  }

  /** A failure among the first `k` layers is the failure of the whole loop. */
  lemma {:induction false} RenderSeqPrefixError(layers: seq<Layer>, render: LayerRenderer, k: nat)
    requires k <= |layers|
    requires RenderSeq(layers[..k], render).Err?
    ensures RenderSeq(layers, render) == RenderSeq(layers[..k], render)
    decreases |layers| - k
  {
    if k < |layers| {
      assert layers[..|layers| - 1][..k] == layers[..k];
      RenderSeqPrefixError(layers[..|layers| - 1], render, k);
    } else {
      assert layers[..k] == layers;
    }
  }

  /** The reference loop succeeds exactly when every layer renders, and
      then holds each layer's drawing in order; otherwise it fails with the
      error of the first layer that fails. */
  lemma {:induction false} RenderSeqSpec(layers: seq<Layer>, render: LayerRenderer)
    ensures var r := RenderSeq(layers, render);
            && (r.Ok? <==> forall t :: 0 <= t < |layers| ==> render(layers[t]).Ok?)
            && (r.Ok? ==> |r.value| == |layers| && forall t :: 0 <= t < |layers| ==>
                  r.value[t] == render(layers[t]).value)
            && (r.Err? ==> exists t :: (0 <= t < |layers| && render(layers[t]).Err?
                  && r.error == render(layers[t]).error
                  && forall u :: 0 <= u < t ==> render(layers[u]).Ok?))
    decreases |layers|
  {
    if |layers| > 0 {
      var prefix := layers[..|layers| - 1];
      RenderSeqSpec(prefix, render);
      assert forall t :: 0 <= t < |prefix| ==> prefix[t] == layers[t];
      var before := RenderSeq(prefix, render);
      if before.Err? {
        var t :| 0 <= t < |prefix| && render(prefix[t]).Err?
                 && before.error == render(prefix[t]).error
                 && forall u :: 0 <= u < t ==> render(prefix[u]).Ok?;
        assert forall u :: 0 <= u < t ==> render(layers[u]).Ok?;
      }
    }
  }

  /** The y offset of each layer: the total height of the layers above it. */
  function OffsetsOf(ds: seq<Drawing>): (offsets: seq<nat>)
    ensures |offsets| == |ds|
    decreases |ds|
  {
    if |ds| == 0 then [] else OffsetsOf(ds[..|ds| - 1]) + [SumHeights(ds[..|ds| - 1])]
  }

  /** One separator under each layer of `ds`, at the bottom of that layer
      and as wide as the widest layer so far. */
  function SeparatorsOf(ds: seq<Drawing>): (separators: seq<Separator>)
    ensures |separators| == |ds|
    decreases |ds|
  {
    if |ds| == 0 then [] else SeparatorsOf(ds[..|ds| - 1]) + [Separator(SumHeights(ds), MaxWidth(ds))]
  }

  lemma PrefixOfPrefix<T>(s: seq<T>, k: nat, m: nat)
    requires m <= k <= |s|
    ensures s[..k][..m] == s[..m]
  {
  }

  /** Layer `t`'s offset is the total height of the layers before it. */
  lemma {:induction false} OffsetsOfSpec(ds: seq<Drawing>)
    ensures |OffsetsOf(ds)| == |ds|
    ensures forall t :: 0 <= t < |ds| ==> OffsetsOf(ds)[t] == SumHeights(ds[..t])
    decreases |ds|
  {
    if |ds| > 0 {
      var prefix := ds[..|ds| - 1];
      OffsetsOfSpec(prefix);
      forall t | 0 <= t < |prefix|
        ensures OffsetsOf(ds)[t] == SumHeights(ds[..t])
      {
        PrefixOfPrefix(ds, |ds| - 1, t);
      }
    }
  }

  /** Separator `t` sits at the bottom of layer `t` (the total height of
      layers 0..t) and reaches the widest of those layers. */
  lemma {:induction false} SeparatorsOfSpec(ds: seq<Drawing>)
    ensures |SeparatorsOf(ds)| == |ds|
    ensures forall t :: 0 <= t < |ds| ==>
              SeparatorsOf(ds)[t] == Separator(SumHeights(ds[..t + 1]), MaxWidth(ds[..t + 1]))
    decreases |ds|
  {
    if |ds| > 0 {
      var prefix := ds[..|ds| - 1];
      SeparatorsOfSpec(prefix);
      forall t | 0 <= t < |prefix|
        ensures SeparatorsOf(ds)[t] == Separator(SumHeights(ds[..t + 1]), MaxWidth(ds[..t + 1]))
      {
        PrefixOfPrefix(ds, |ds| - 1, t + 1);
      }
      assert ds[..|ds|] == ds;
    }
  }

  /** Appending one drawing extends every running quantity by one step. */
  lemma SnocStep(done: seq<Drawing>, d: Drawing)
    ensures var next := done + [d];
            && next[..|done|] == done
            && SumHeights(next) == SumHeights(done) + d.Height()
            && MaxWidth(next) == (if d.Width() > MaxWidth(done) then d.Width() else MaxWidth(done))
            && OffsetsOf(next) == OffsetsOf(done) + [SumHeights(done)]
            && SeparatorsOf(next) == SeparatorsOf(done) + [Separator(SumHeights(next), MaxWidth(next))]
  {
  }

  /** Extending the prefix by one layer extends the reference loop by one step. */
  lemma RenderSeqStep(layers: seq<Layer>, render: LayerRenderer, t: nat)
    requires t < |layers|
    ensures var before := RenderSeq(layers[..t], render);
            var d := render(layers[t]);
            RenderSeq(layers[..t + 1], render)
            == if before.Err? then before else if d.Err? then Err(d.error) else Ok(before.value + [d.value])
  {
    assert layers[..t + 1][..t] == layers[..t];
  }

  /** The separators drawn after the layers `done`: one under each, except
      under the last layer once the loop has `finished`. */
  function SeparatorsSoFar(done: seq<Drawing>, finished: bool): seq<Separator>
  {
    if finished && |done| > 0 then SeparatorsOf(done[..|done| - 1]) else SeparatorsOf(done)
  }

  /** The bookkeeping after one more layer has been drawn: the running
      height, width, offsets and separators move from those of `done` to
      those of `done + [d]`, and no separator is drawn under the last layer. */
  method PlaceLayer(ghost done: seq<Drawing>, d: Drawing, yOffset: nat, maxWidth: nat,
                    offsets: seq<nat>, separators: seq<Separator>, isLast: bool)
    returns (yOffset': nat, maxWidth': nat, offsets': seq<nat>, separators': seq<Separator>)
    requires yOffset == SumHeights(done) && maxWidth == MaxWidth(done)
    requires offsets == OffsetsOf(done) && separators == SeparatorsOf(done)
    ensures yOffset' == SumHeights(done + [d])
    ensures maxWidth' == MaxWidth(done + [d])
    ensures offsets' == OffsetsOf(done + [d])
    ensures separators' == SeparatorsSoFar(done + [d], isLast)
  {
    SnocStep(done, d);
    maxWidth' := if d.Width() > maxWidth then d.Width() else maxWidth;
    offsets' := offsets + [yOffset];
    separators' := separators;
    if !isLast {
      separators' := separators + [Separator(yOffset + d.Height(), maxWidth')];
    }
    yOffset' := yOffset + d.Height();
  }

  /** The loop of `render_all`, step by step as the source writes it,
      over any per-layer renderer. The offsets and separators are those of
      the reference drawings, with no separator under the last layer. */
  method StackLayers(layers: seq<Layer>, render: LayerRenderer, rev: bool) returns (r: Result<Stacked>)
    ensures var ref := RenderSeq(IterationOrder(layers, rev), render);
            && (r.Ok? <==> ref.Ok?)
            && (r.Err? ==> r.error == ref.error)
            && (r.Ok? ==>
                  && r.value.height == SumHeights(ref.value)
                  && r.value.width == MaxWidth(ref.value)
                  && r.value.offsets == OffsetsOf(ref.value)
                  && r.value.separators == if |ref.value| == 0 then []
                                           else SeparatorsOf(ref.value[..|ref.value| - 1]))
  {
    var n := |layers|;
    var ordered := IterationOrder(layers, rev);
    var yOffset: nat := 0;
    var maxWidth: nat := 0;
    var offsets: seq<nat> := [];
    var separators: seq<Separator> := [];
    ghost var done: seq<Drawing> := [];
    var t := 0;
    while t < n
      invariant 0 <= t <= n
      invariant |done| == t
      invariant RenderSeq(ordered[..t], render) == Ok(done)
      invariant yOffset == SumHeights(done)
      invariant maxWidth == MaxWidth(done)
      invariant offsets == OffsetsOf(done)
      invariant separators == SeparatorsSoFar(done, t == n)
    {
      var i := if rev then n - 1 - t else t;
      var rendered := render(ordered[t]);
      if rendered.Err? {
        assert RenderSeq(ordered, render) == Err(rendered.error) by {
          RenderSeqStep(ordered, render, t);
          RenderSeqPrefixError(ordered, render, t + 1);
        }
        return Err(rendered.error);
      }
      var d := rendered.value;
      assert RenderSeq(ordered[..t + 1], render) == Ok(done + [d]) by {
        RenderSeqStep(ordered, render, t);
      }
      var isLast := if rev then i == 0 else i == n - 1;
      assert isLast <==> t + 1 == n;
      yOffset, maxWidth, offsets, separators :=
        PlaceLayer(done, d, yOffset, maxWidth, offsets, separators, isLast);
      done := done + [d];
      t := t + 1;
    }
    assert ordered[..t] == ordered;
    assert separators == if |done| == 0 then [] else SeparatorsOf(done[..|done| - 1]);
    r := Ok(Stacked(maxWidth, yOffset, offsets, separators));
  }

  /** `render_all`: the layers of the style, drawn with the legend's
      settings, stacked in index order or in reverse. */
  method RenderAll(style: Style, settings: Settings, env: Collaborators, rev: bool) returns (r: Result<Stacked>)
    ensures var ref := RenderSeq(IterationOrder(style.layers, rev), RenderWith(settings, env));
            && (r.Ok? <==> ref.Ok?)
            && (r.Err? ==> r.error == ref.error)
            && (r.Ok? ==>
                  && r.value.height == SumHeights(ref.value)
                  && r.value.width == MaxWidth(ref.value)
                  && r.value.offsets == OffsetsOf(ref.value)
                  && r.value.separators == if |ref.value| == 0 then []
                                           else SeparatorsOf(ref.value[..|ref.value| - 1]))
  {
    r := StackLayers(style.layers, RenderWith(settings, env), rev);
  }

  /** Separators in index terms: n-1 of them for n layers, separator `t`
      at the bottom of layer `t` (its offset plus its height), reaching the
      widest of layers 0..t. */
  lemma {:induction false} SeparatorPlacement(ds: seq<Drawing>)
    requires |ds| > 0
    ensures var seps := SeparatorsOf(ds[..|ds| - 1]);
            && |seps| == |ds| - 1
            && forall t :: 0 <= t < |seps| ==>
                 && seps[t].y == OffsetsOf(ds)[t] + ds[t].Height()
                 && seps[t].x2 == MaxWidth(ds[..t + 1])
  {
    var prefix := ds[..|ds| - 1];
    SeparatorsOfSpec(prefix);
    OffsetsOfSpec(ds);
    var seps := SeparatorsOf(prefix);
    forall t | 0 <= t < |seps|
      ensures seps[t].y == OffsetsOf(ds)[t] + ds[t].Height()
      ensures seps[t].x2 == MaxWidth(ds[..t + 1])
    {
      PrefixOfPrefix(ds, |ds| - 1, t + 1);
      PrefixOfPrefix(ds, t + 1, t);
      assert ds[..t + 1][t] == ds[t];
    }
  }
}
